=== FILE: README.md ===
# B2B catalog storefront: state model

This project models the state logic of a single-page B2B catalog storefront.
The shop keeps four collections: products, users, the cart of the signed-in
session and the order ledger. Every user action replaces one of these
collections with a new one. Here each of those updates is a pure Dafny
function from sequences (plus arguments) to new sequences.

The modules follow the application's concerns:

- `Types` holds the records of `types.ts`: `Product`, `Category`, `User`
  with its role and optional flags, `CartItem`, `OrderStatus` and `Order`.
  Optional fields are `Option`s. An optional boolean flag is read through
  `Flag`, so an absent flag counts as false.
- `Seqs` holds the array operations the handlers use: `filter`, `map` and
  `findIndex`. It also defines `IsSubsequence`, "the same entries, some
  dropped, the rest in order", which is how the filters' order promise is stated.
- `Text` holds `toLowerCase` (on Latin letters, Turkish included except dotted İ) and `includes`. The `includes`
  scan is proved equal to "occurs at some position".
- `Cart` covers add, quantity update, remove, clear and the cart-page totals.
  It also defines the cart invariant: one line per product, each quantity
  between 1 and its snapshot's stock.
- `Catalog` covers the trash (soft delete, restore, permanent delete, empty
  trash), single create and edit, and the bulk import.
- `Visibility` is the filtered catalog a signed-in user sees. It is proved
  equal, product by product, to an independent predicate `Visible`.
- `Users` covers admin create, self-registration, approval, the
  active/passive switch and the field-merging edit.
- `Login` covers the sign-in decision and its four outcomes.
- `Orders` covers checkout, status overwrite, receipt upload, container photo
  upload and the per-role order list.

Prices, rates and totals are exact `real`s. Ids, timestamps and uploaded file
names are parameters.

## Model

| member | source | states |
|---|---|---|
| `Types.FlagAbsentIsFalse` | types.ts:57-62 | an optional flag is true only when present and true; an absent flag reads as false |
| `Types.RoleNamesDistinct` | types.ts:48 | the three role strings are pairwise distinct, so a user has exactly one role |
| `Types.StatusesClosedAndDistinct` | types.ts:70-82 | there are exactly eleven order states; every status is among them; their labels are pairwise distinct |
| `Types.CategoryLabelsDistinct` | types.ts:13-20 | each product category carries its own label |
| `Cart.AddToCart` | App.tsx:328-343 | quantity <= 0 or above the offered product's stock: cart unchanged; new product: exactly one line appended with that quantity; product present: every line of it set to min(stock, first line's quantity + q), other lines and all snapshots untouched |
| `Cart.UpdateQuantity` | App.tsx:347-365 | unknown product: cart unchanged; quantity <= 0: the same as removing the product; otherwise the product's lines get min(new quantity, stock of the cart's snapshot) and nothing else changes |
| `Cart.RemoveFromCart` | App.tsx:367-369 | the result holds exactly the lines of other products, each as often as in the cart, in cart order; removing an absent product is a no-op |
| `Cart.ClearedCartTotals` | App.tsx:371-373 | a cleared cart is well formed and shows zero subtotal, discount, grand total and item count |
| `Cart.ClearCart` | App.tsx:371-373 | the cart holds no line afterwards |
| `Cart.CartTotals` | App.tsx:574-577 | subtotal is the sum of price x quantity, item count the sum of quantities; discount + grand total = subtotal; grand total = subtotal x (1 - rate) for a signed-in user, the subtotal otherwise |
| `Cart.AddNewProductTotals` | App.tsx:340-341 | a new line raises the item count by its quantity and the subtotal by price x quantity |
| `Cart.AddKeepsWellFormed` | App.tsx:333-342 | adding keeps one line per product with quantities in [1, stock], provided the cart's snapshot of the product has the offered product's stock |
| `Cart.UpdateKeepsWellFormed` | App.tsx:348-364 | updating a quantity keeps the cart well formed |
| `Cart.RemoveKeepsWellFormed` | App.tsx:367-369 | removing keeps the cart well formed |
| `Cart.AddThreeThenFourClampsToStock` | App.tsx:334-339 | with stock 5, adding 3 then 4 leaves one line of 5 |
| `Cart.UpdateAboveStockClamps` | App.tsx:355-360 | asking for stock + 5 leaves exactly the stock |
| `Catalog.SoftDelete` | App.tsx:222-226 | only the trash flag can change; it becomes set exactly on products with the id; the length is unchanged |
| `Catalog.Restore` | App.tsx:228-232 | only the trash flag can change; it is cleared exactly on products with the id |
| `Catalog.PermanentDelete` | App.tsx:234-236 | the result holds exactly the products with another id, each as often as in the catalog, in catalog order |
| `Catalog.EmptyTrash` | App.tsx:238-240 | the result holds exactly the untrashed products, each as often as in the catalog, in catalog order |
| `Catalog.TrashedProducts` | App.tsx:572 | the trash page lists exactly the trashed products, each as often as in the catalog, in catalog order |
| `Catalog.CreateSingleProduct` | App.tsx:465-473 | one product is prepended under the new id, untrashed, and otherwise as drafted; the rest of the catalog follows unchanged |
| `Catalog.UpdateProduct` | App.tsx:475-478 | every product with the edited id becomes the edited product; the others and all ids stay |
| `Catalog.RestoreUndoesSoftDelete` | App.tsx:222-232 | trashing then restoring a product that was not trashed returns the catalog unchanged |
| `Catalog.SoftDeleteUndoesRestore` | App.tsx:222-232 | restoring then trashing a trashed product returns the catalog unchanged |
| `Catalog.EmptyTrashAfterSoftDelete` | App.tsx:222-240 | trashing a product and emptying the trash equals emptying the trash and deleting that product for good |
| `Catalog.TrashPartitions` | App.tsx:238-240 | the emptied catalog and the trash view together have as many products as the catalog |
| `Catalog.PermanentDeleteUndoesCreate` | App.tsx:465-471 | creating under a fresh id and deleting that id returns the catalog unchanged |
| `Catalog.UpdateProductIdempotent` | App.tsx:475-478 | applying the same edit twice equals applying it once |
| `Catalog.WithProperId` | App.tsx:481-485 | an imported product keeps its id unless it is empty, when the generated one is used; its trash flag is cleared; nothing else changes |
| `Catalog.ImportOne` | App.tsx:491-499 | an imported product overwrites the first product with the same id or name, or, when none matches, is prepended; it is always in the result; products it does not match survive |
| `Catalog.Import` | App.tsx:487-500 | created + updated = batch size; the list grows by the created count; nothing appears from outside the list and the batch; unmatched products survive; the last imported product is present |
| `Catalog.AddMultipleProducts` | App.tsx:480-503 | created + updated = batch size; every product not already in the catalog is untrashed; old products matched by no import and no generated id survive |
| `Text.IncludesIff` | App.tsx:563-567 | the `includes` scan answers true exactly when the needle occurs at some position |
| `Text.LowerChar` | App.tsx:172 | a capital (A-Z, Latin-1 À-Þ, the Latin Extended-A capitals such as Ğ and Ş) changes, A-Z to the letter 32 code points on; no result is a capital; every other character stays |
| `Text.Lower` | App.tsx:564-566 | lowering keeps the length of the string |
| `Text.LowerLeavesNoCapital` | App.tsx:564-566 | after lowering no capital is left; every character that is not a capital stays in place; every capital changes |
| `Text.LowerTurkish` | App.tsx:564-566 | Ç, Ğ, Ö, Ş, Ü and I lower to ç, ğ, ö, ş, ü and i |
| `Text.Includes` | App.tsx:564-566 | the empty needle is always found; a found needle is no longer than the text, and equal to it when as long |
| `Text.LowerIdempotent` | App.tsx:172 | lowering twice equals lowering once |
| `Visibility.VisibleProducts` | App.tsx:554-570 | a product is shown iff it is in the catalog, untrashed, in a granted category for role `user`, in the selected category if any, and its lowered name, description or category label contains the lowered term; each shown product appears as often as in the catalog; the result is an order-preserving selection of the catalog |
| `Visibility.SearchFindsTurkishCapital` | App.tsx:562-568 | a search for "çoklu" finds a product whose description is "Çoklu görev" |
| `Visibility.MatchesSearchIff` | App.tsx:562-568 | the search step keeps a product exactly when the term occurs in one of the three lowered fields |
| `Visibility.NoTrashedAndOnlyGranted` | App.tsx:555-558 | no shown product is trashed; for role `user`, every shown product's category is granted |
| `Visibility.AdminsIgnoreGrants` | App.tsx:556-558 | for super admins and managers the granted categories do not affect the result |
| `Visibility.AdminUnfilteredViewIsCatalog` | App.tsx:554-570 | with no category and no term, an admin sees exactly the untrashed catalog |
| `Users.CreateUser` | App.tsx:242-252 | exactly one account is appended: new id, chosen password, approval flag false, every other field as given |
| `Users.SelfRegister` | App.tsx:505-522 | exactly one account is appended: role `user`, discount 0, no categories, inactive, waiting for approval, no capability flags; name, contact and password from the form |
| `Users.Approve` | App.tsx:272-277 | accounts with the id become active and no longer waiting, nothing else changes; others untouched |
| `Users.ToggleActive` | App.tsx:261-270 | only the active flag can change, and it flips exactly on accounts with the id that are not waiting |
| `Users.Merge` | App.tsx:256 | the merged record takes id, role, active flag, name, e-mail, username, rate and categories from the edit, and each optional field (password, company, tax id, phone, approval flag, the three capability flags) from the edit when present, else from the stored account; a key set to `undefined` counts as absent |
| `Users.UpdateCanActivateWaiting` | App.tsx:254-259 | an edit that sets a waiting, inactive account active without an approval flag turns a consistent roster into one where a waiting account is active |
| `Users.UpdateUser` | App.tsx:254-259 | accounts with the edited id receive the merge (required fields from the edit, optional ones from the edit when present); others and all ids unchanged |
| `Users.ToggleTwiceIsIdentity` | App.tsx:261-270 | flipping twice restores any roster |
| `Users.ToggleLeavesPendingAlone` | App.tsx:264 | the switch leaves a waiting account exactly as it was |
| `Users.ApproveIdempotent` | App.tsx:272-277 | approving twice equals approving once |
| `Users.UpdateUserIdempotent` | App.tsx:254-259 | merging an edit twice equals merging it once |
| `Users.LifecyclePreservesConsistency` | App.tsx:242-277 | creation, self-registration, approval and the switch keep "a waiting account is inactive" |
| `Login.SignIn` | App.tsx:169-186 | no matching account: generic refusal; first match waiting: waiting refusal; first match not waiting and inactive: inactive refusal; first match not waiting and active: signed in as that account |
| `Login.SignedInAccountIsApproved` | App.tsx:174-179 | a signed-in account is in the roster, active, not waiting, with exactly the typed password |
| `Login.SignInIgnoresCase` | App.tsx:171-173 | lower-casing the typed identifier does not change the outcome |
| `Login.CreatedAccountSignsIn` | App.tsx:242-250 | an active admin-created account signs in at once, unless an older account matches the same credentials |
| `Login.RegisteredWaitsForApproval` | App.tsx:505-522 | a self-registered account gets the waiting refusal with its own credentials, unless an older account answers to the same credentials |
| `Login.ApprovedAccountSignsIn` | App.tsx:272-275 | after approval those credentials sign the account in, unless an older account answers to the same credentials |
| `Login.OlderAccountShadowsRegistration` | App.tsx:171-173 | an older active, approved account with the same username and password signs in for the registrant's credentials, both before and after the registration is approved |
| `Orders.CreateOrder` | App.tsx:375-392 | no user or empty cart: ledger and cart unchanged, no order; otherwise one order prepended with the cart lines, status "order confirmed", subtotal = sum of price x quantity, discount = subtotal x rate, grand total = subtotal x (1 - rate) = subtotal - discount; no evidence or notes; cart emptied |
| `Orders.UpdateOrderStatus` | App.tsx:421-429 | orders with the id take the new status whatever it was; their admin note is replaced only by a present, non-empty note; nothing else changes; other orders untouched |
| `Orders.UploadPaymentProof` | App.tsx:436-444 | orders with the id get the receipt path and customer note, and status "payment proof uploaded" whatever it was; nothing else changes |
| `Orders.UploadContainerPhoto` | App.tsx:454-463 | orders with the id get the photo path; nothing else changes, status included |
| `Orders.VisibleOrders` | App.tsx:654 | role `user` sees exactly their own orders, each as often as in the ledger, in ledger order; super admins and managers see the whole ledger |
| `Orders.LedgerUpdatesKeepSnapshots` | types.ts:84-97 | no post-checkout operation changes an order's id, owner, date, lines or totals |
| `Orders.UpdateOrderStatusIdempotent` | App.tsx:421-429 | setting the same status and note twice equals setting them once |
| `Orders.UploadPaymentProofIdempotent` | App.tsx:436-444 | uploading the same receipt twice equals uploading it once |
| `Orders.BuyerSeesNewOrder` | App.tsx:654 | right after checkout the new order is on the buyer's order list |
| `Orders.OrderMatchesCartTotals` | App.tsx:385-387 | the order's subtotal, discount and grand total equal the cart page's figures for the buyer |
| `Orders.GrandTotalNonNegative` | App.tsx:385-387 | with non-negative prices and quantities and a rate in [0, 1], the discount is between 0 and the subtotal and the grand total is non-negative |
| `Orders.TenPercentOfHundred` | App.tsx:385-387 | subtotal 100 at rate 0.1 gives discount 10 and grand total 90 |
| `Orders.ReceiptOverridesProcessing` | App.tsx:438-444 | a receipt on an order in "processing" moves it to "payment proof uploaded" |

Four behaviours of the code worth knowing:

- The over-stock clamp of a quantity update uses the stock of the product
  snapshot held in the cart line. It does not use the live catalog.
- The add-to-cart check uses the stock of the product being offered.
- An edit of a user can set a waiting account active. Admin edits therefore
  do not keep the "waiting means inactive" rule. `Users.LifecyclePreservesConsistency`
  leaves `UpdateUser` out for this reason, and `Users.UpdateCanActivateWaiting`
  shows an edit that breaks the rule.
- Neither registration nor admin creation checks that a username or e-mail
  is free, and sign-in takes the first account that matches. An older
  account with the same identifier and password therefore shadows a newer
  one, as `Login.OlderAccountShadowsRegistration` shows.

## Left out

- Persistence to browser storage, the JSON round trip and the re-parsing of order dates (App.tsx:66-150): browser I/O.
- The chat assistant, its session and its streamed replies: calls to a hosted model API with no logic of their own in this core.
- Every simulated e-mail/SMS notification and every `alert`: side effects only. The "was an order found" result that triggers the status notification is not returned.
- Id and timestamp generation: `newId`, `orderId`, `orderDate` and `freshIds` are parameters. Generated ids are not assumed unique.
- Rendering, page gating, navigation, logout (which also clears the cart) and the login form's empty-field check: UI.
- The sample data constants: static data.
- Floating-point rounding and `toFixed`: all arithmetic is exact `real`.
- `Text.Lower`: lowers the letters of the Basic Latin, Latin-1 and Latin Extended-A blocks only. Dotted capital I (U+0130) stays as it is, because `toLowerCase` turns it into two characters (i and a combining dot) and the model keeps lengths. Capitals of other scripts (Greek, Cyrillic, ...) are not lowered.
- JavaScript number semantics for quantities and stock (fractions, NaN): they are modelled as mathematical integers.
- `Cart.AddKeepsWellFormed`: requires that the cart's snapshot of the product has the same stock as the product being added. With stock drift the handler can leave a line above its snapshot's stock.
- `Users.Merge`: an optional field of the edit that is `None` keeps the stored value. In the source the spread `{ ...u, ...updatedUserData }` also copies a key that is present with the value `undefined`, which erases the stored value (for a password, the account can then no longer sign in). `Option` does not tell an absent key from a key set to `undefined`, so the model treats both as absent. `Users.UpdateUser` inherits this.
- `Catalog.ImportOne`: an incoming product is a complete `Product` and replaces the matched one whole. The spread `{ ...existing, ...np }` keeps any field that an incoming record read from untyped data lacks; records with missing fields are not modelled.
- `Catalog.AddMultipleProducts`: the survival guarantee needs the old product's id to differ from the generated ids. A collision with a generated id is not ruled out by the model.

=== FILE: cart.dfy ===
/** The shopping cart of the signed-in session: a sequence of lines, each a
    product snapshot with a quantity, changed only by add, update, remove and
    clear. The read-only totals are recomputed from the lines. */
module Cart {
  import opened Types
  import Seqs

  function Min(a: int, b: int): (r: int)
    ensures r <= a && r <= b && (r == a || r == b)
  {
    if a <= b then a else b
  }

  /** Some line of the cart is for product `id`. */
  predicate InCart(cart: seq<CartItem>, id: string)
  {
    exists i :: 0 <= i < |cart| && cart[i].product.id == id
  }

  /** Line `k` is the first line for product `id`, the one `find` returns. */
  ghost predicate FirstLine(cart: seq<CartItem>, id: string, k: int)
  {
    0 <= k < |cart| && cart[k].product.id == id
    && forall j :: 0 <= j < k ==> cart[j].product.id != id
  }

  /** Position of the first line for product `id`, or -1. */
  function LineOf(cart: seq<CartItem>, id: string): (k: int)
    ensures k == -1 <==> !InCart(cart, id)
    ensures k != -1 ==> FirstLine(cart, id, k)
  {
    Seqs.FindIndex(cart, (item: CartItem) => item.product.id == id)
  }

  /** Every line for product `id` gets quantity `q`; nothing else moves. */
  function SetQuantity(cart: seq<CartItem>, id: string, q: int): (r: seq<CartItem>)
    ensures |r| == |cart|
    ensures forall i :: 0 <= i < |cart| ==>
              r[i].product == cart[i].product
              && r[i].quantity == (if cart[i].product.id == id then q else cart[i].quantity)
  {
    Seqs.Map(cart, (item: CartItem) => if item.product.id == id then item.(quantity := q) else item)
  }

  /** Adding is refused for a non-positive quantity or one above the stock of
      the product offered. A product already in the cart has its quantity
      raised, silently capped at that stock; a new product gets a new line at
      the end. */
  function AddToCart(cart: seq<CartItem>, product: Product, quantity: int): (r: seq<CartItem>)
    ensures quantity <= 0 || quantity > product.stock ==> r == cart
    ensures 0 < quantity <= product.stock && !InCart(cart, product.id) ==>
              r == cart + [CartItem(product, quantity)]
    ensures forall k :: 0 < quantity <= product.stock && FirstLine(cart, product.id, k) ==>
              |r| == |cart|
              && forall i :: 0 <= i < |cart| ==>
                   r[i].product == cart[i].product
                   && r[i].quantity == (if cart[i].product.id == product.id
                                        then Min(product.stock, cart[k].quantity + quantity)
                                        else cart[i].quantity)
  {
    if quantity <= 0 || quantity > product.stock then cart
    else
      var k := LineOf(cart, product.id);
      if k != -1 then SetQuantity(cart, product.id, Min(product.stock, cart[k].quantity + quantity))
      else cart + [CartItem(product, quantity)]
  }

  /** The lines of every product other than `id`, in their order. */
  function RemoveFromCart(cart: seq<CartItem>, id: string): (r: seq<CartItem>)
    ensures forall x :: x in r <==> x in cart && x.product.id != id
    ensures forall x :: multiset(r)[x] == if x.product.id != id then multiset(cart)[x] else 0
    ensures Seqs.IsSubsequence(r, cart)
    ensures !InCart(cart, id) ==> r == cart
  {
    var r := Seqs.Filter(cart, (item: CartItem) => item.product.id != id);
    if !InCart(cart, id) then
      Seqs.FilterKeepsAll(cart, (item: CartItem) => item.product.id != id);
      r
    else r
  }

  /** Setting a quantity: an unknown product changes nothing, a quantity of
      zero or less removes the product, one above the stock recorded in the
      cart line is clamped to that stock, anything else is taken as given. */
  function UpdateQuantity(cart: seq<CartItem>, id: string, newQuantity: int): (r: seq<CartItem>)
    ensures !InCart(cart, id) ==> r == cart
    ensures newQuantity <= 0 ==> r == RemoveFromCart(cart, id)
    ensures forall k :: 0 < newQuantity && FirstLine(cart, id, k) ==>
              |r| == |cart|
              && forall i :: 0 <= i < |cart| ==>
                   r[i].product == cart[i].product
                   && r[i].quantity == (if cart[i].product.id == id
                                        then Min(newQuantity, cart[k].product.stock)
                                        else cart[i].quantity)
  {
    var k := LineOf(cart, id);
    if k == -1 then cart
    else if newQuantity <= 0 then RemoveFromCart(cart, id)
    else if newQuantity > cart[k].product.stock then SetQuantity(cart, id, cart[k].product.stock)
    else SetQuantity(cart, id, newQuantity)
  }

  function ClearCart(): (r: seq<CartItem>)
    ensures |r| == 0
  {
    []
  }

  function LineTotal(item: CartItem): real
  {
    item.product.price * item.quantity as real
  }

  /** Sum of price times quantity over the lines. */
  function Subtotal(cart: seq<CartItem>): real
    decreases |cart|
  {
    if |cart| == 0 then 0.0 else LineTotal(cart[0]) + Subtotal(cart[1..])
  }

  /** Sum of the quantities, the count shown on the cart badge. */
  function ItemCount(cart: seq<CartItem>): int
    decreases |cart|
  {
    if |cart| == 0 then 0 else cart[0].quantity + ItemCount(cart[1..])
  }

  datatype Totals = Totals(subtotal: real, discount: real, grandTotal: real, itemCount: int)

  /** The cart page figures: the discount is the signed-in user's rate applied
      to the subtotal (none without a user), and the grand total what remains. */
  function CartTotals(cart: seq<CartItem>, currentUser: Option<User>): (t: Totals)
    ensures t.subtotal == Subtotal(cart) && t.itemCount == ItemCount(cart)
    ensures t.grandTotal + t.discount == t.subtotal
    ensures currentUser.None? ==> t.grandTotal == t.subtotal
    ensures currentUser.Some? ==> t.grandTotal == t.subtotal * (1.0 - currentUser.value.discountRate)
  {
    var subtotal := Subtotal(cart);
    var discount := if currentUser.Some? then subtotal * currentUser.value.discountRate else 0.0;
    Totals(subtotal, discount, subtotal - discount, ItemCount(cart))
  }

  /** Every line has a quantity between one and the stock of its snapshot,
      and no product has two lines. */
  ghost predicate WellFormed(cart: seq<CartItem>)
  {
    Seqs.UniqueBy(cart, (item: CartItem) => item.product.id)
    && forall i :: 0 <= i < |cart| ==> 1 <= cart[i].quantity <= cart[i].product.stock
  }

  lemma {:induction false} SubtotalAppend(a: seq<CartItem>, b: seq<CartItem>)
    ensures Subtotal(a + b) == Subtotal(a) + Subtotal(b)
    decreases |a|
  {
    if |a| == 0 {
      assert a + b == b;
    } else {
      assert (a + b)[0] == a[0];
      assert (a + b)[1..] == a[1..] + b;
      SubtotalAppend(a[1..], b);
    }
  }

  lemma {:induction false} ItemCountAppend(a: seq<CartItem>, b: seq<CartItem>)
    ensures ItemCount(a + b) == ItemCount(a) + ItemCount(b)
    decreases |a|
  {
    if |a| == 0 {
      assert a + b == b;
    } else {
      assert (a + b)[0] == a[0];
      assert (a + b)[1..] == a[1..] + b;
      ItemCountAppend(a[1..], b);
    }
  }

  /** A new line adds its quantity to the item count and price times quantity
      to the subtotal. */
  lemma AddNewProductTotals(cart: seq<CartItem>, product: Product, quantity: int)
    requires 0 < quantity <= product.stock && !InCart(cart, product.id)
    ensures ItemCount(AddToCart(cart, product, quantity)) == ItemCount(cart) + quantity
    ensures Subtotal(AddToCart(cart, product, quantity)) == Subtotal(cart) + product.price * quantity as real
  {
    var line := [CartItem(product, quantity)];
    ItemCountAppend(cart, line);
    SubtotalAppend(cart, line);
  }

  /** With non-negative prices and quantities the subtotal is non-negative. */
  lemma {:induction false} SubtotalNonNegative(cart: seq<CartItem>)
    requires forall i :: 0 <= i < |cart| ==> cart[i].product.price >= 0.0 && cart[i].quantity >= 0
    ensures Subtotal(cart) >= 0.0
    decreases |cart|
  {
    if |cart| > 0 {
      SubtotalNonNegative(cart[1..]);
    }
  }

  /** Adding keeps the cart well formed as long as the lines already held for
      the product carry the same stock figure as the product being added. */
  lemma AddKeepsWellFormed(cart: seq<CartItem>, product: Product, quantity: int)
    requires WellFormed(cart)
    requires forall i :: 0 <= i < |cart| && cart[i].product.id == product.id ==>
               cart[i].product.stock == product.stock
    ensures WellFormed(AddToCart(cart, product, quantity))
  {
    var r := AddToCart(cart, product, quantity);
    if 0 < quantity <= product.stock {
      if !InCart(cart, product.id) {
        assert r == cart + [CartItem(product, quantity)];
      } else {
        var k := LineOf(cart, product.id);
        assert FirstLine(cart, product.id, k);
      }
    }
  }

  /** Updating a quantity keeps the cart well formed. */
  lemma UpdateKeepsWellFormed(cart: seq<CartItem>, id: string, newQuantity: int)
    requires WellFormed(cart)
    ensures WellFormed(UpdateQuantity(cart, id, newQuantity))
  {
    if InCart(cart, id) {
      var k := LineOf(cart, id);
      assert FirstLine(cart, id, k);
      if newQuantity <= 0 {
        RemoveKeepsWellFormed(cart, id);
      } else {
        var r := UpdateQuantity(cart, id, newQuantity);
        forall i | 0 <= i < |r|
          ensures 1 <= r[i].quantity <= r[i].product.stock
        {
          if cart[i].product.id == id {
            assert i == k;
          }
        }
      }
    }
  }

  /** Removing a product keeps the cart well formed. */
  lemma RemoveKeepsWellFormed(cart: seq<CartItem>, id: string)
    requires WellFormed(cart)
    ensures WellFormed(RemoveFromCart(cart, id))
  {
    var r := RemoveFromCart(cart, id);
    Seqs.SubsequenceUnique(r, cart, (item: CartItem) => item.product.id);
    forall i | 0 <= i < |r|
      ensures 1 <= r[i].quantity <= r[i].product.stock
    {
      assert r[i] in cart;
    }
  }

  /** A cleared cart is well formed and every total on the cart page is zero. */
  lemma ClearedCartTotals(currentUser: Option<User>)
    ensures WellFormed(ClearCart())
    ensures CartTotals(ClearCart(), currentUser) == Totals(0.0, 0.0, 0.0, 0)
  {
  }

  /** Adding three and then four of a product with stock five leaves five. */
  lemma AddThreeThenFourClampsToStock(p: Product)
    requires p.stock == 5
    ensures AddToCart(AddToCart([], p, 3), p, 4) == [CartItem(p, 5)]
  {
    var once := AddToCart([], p, 3);
    assert once == [CartItem(p, 3)];
    assert FirstLine(once, p.id, 0);
  }

  /** Asking for five more than the stock leaves exactly the stock. */
  lemma UpdateAboveStockClamps(cart: seq<CartItem>, k: int)
    requires 0 <= k < |cart| && FirstLine(cart, cart[k].product.id, k)
    requires cart[k].product.stock >= 0
    ensures var r := UpdateQuantity(cart, cart[k].product.id, cart[k].product.stock + 5);
            |r| == |cart| && r[k].quantity == cart[k].product.stock
  {
  }
}

=== FILE: catalog.dfy ===
/** The product catalog and its trash: products are hidden by a flag rather
    than removed, restored by clearing it, and only dropped for good one by
    one or all at once from the trash. Admins also create, edit and
    bulk-import products. */
module Catalog {
  import opened Types
  import Seqs

  /** Moving product `id` to the trash sets its flag and touches nothing else. */
  function SoftDelete(ps: seq<Product>, id: string): (r: seq<Product>)
    ensures |r| == |ps|
    ensures forall i :: 0 <= i < |ps| ==>
              r[i].(isTrashed := ps[i].isTrashed) == ps[i]
              && r[i].isTrashed == (ps[i].id == id || ps[i].isTrashed)
  {
    Seqs.Map(ps, (p: Product) => if p.id == id then p.(isTrashed := true) else p)
  }

  /** Restoring product `id` clears its flag and touches nothing else. */
  function Restore(ps: seq<Product>, id: string): (r: seq<Product>)
    ensures |r| == |ps|
    ensures forall i :: 0 <= i < |ps| ==>
              r[i].(isTrashed := ps[i].isTrashed) == ps[i]
              && r[i].isTrashed == (ps[i].id != id && ps[i].isTrashed)
  {
    Seqs.Map(ps, (p: Product) => if p.id == id then p.(isTrashed := false) else p)
  }

  /** Every product with id `id` is gone; the others stay, in order. */
  function PermanentDelete(ps: seq<Product>, id: string): (r: seq<Product>)
    ensures forall p :: p in r <==> p in ps && p.id != id
    ensures forall p :: multiset(r)[p] == if p.id != id then multiset(ps)[p] else 0
    ensures Seqs.IsSubsequence(r, ps)
  {
    Seqs.Filter(ps, (p: Product) => p.id != id)
  }

  /** Emptying the trash keeps the products not in it, in order. */
  function EmptyTrash(ps: seq<Product>): (r: seq<Product>)
    ensures forall p :: p in r <==> p in ps && !p.isTrashed
    ensures forall p :: multiset(r)[p] == if !p.isTrashed then multiset(ps)[p] else 0
    ensures Seqs.IsSubsequence(r, ps)
  {
    Seqs.Filter(ps, (p: Product) => !p.isTrashed)
  }

  /** What the trash page lists. */
  function TrashedProducts(ps: seq<Product>): (r: seq<Product>)
    ensures forall p :: p in r <==> p in ps && p.isTrashed
    ensures forall p :: multiset(r)[p] == if p.isTrashed then multiset(ps)[p] else 0
    ensures Seqs.IsSubsequence(r, ps)
  {
    Seqs.Filter(ps, (p: Product) => p.isTrashed)
  }

  /** A new product goes to the front under a fresh id, outside the trash. */
  function CreateSingleProduct(ps: seq<Product>, draft: Product, newId: string): (r: seq<Product>)
    ensures |r| == |ps| + 1 && r[1..] == ps
    ensures r[0].id == newId && !r[0].isTrashed
    ensures r[0].(id := draft.id, isTrashed := draft.isTrashed) == draft
  {
    [draft.(id := newId, isTrashed := false)] + ps
  }

  /** An edit replaces every product carrying the edited product's id. */
  function UpdateProduct(ps: seq<Product>, updated: Product): (r: seq<Product>)
    ensures |r| == |ps|
    ensures forall i :: 0 <= i < |ps| ==> r[i].id == ps[i].id
    ensures forall i :: 0 <= i < |ps| && ps[i].id == updated.id ==> r[i] == updated
    ensures forall i :: 0 <= i < |ps| && ps[i].id != updated.id ==> r[i] == ps[i]
  {
    Seqs.Map(ps, (p: Product) => if p.id == updated.id then updated else p)
  }

  /** Trashing then restoring a product that was not in the trash gives the
      catalog back unchanged. */
  lemma RestoreUndoesSoftDelete(ps: seq<Product>, id: string)
    requires forall i :: 0 <= i < |ps| && ps[i].id == id ==> !ps[i].isTrashed
    ensures Restore(SoftDelete(ps, id), id) == ps
  {
    var r := Restore(SoftDelete(ps, id), id);
    forall i | 0 <= i < |ps|
      ensures r[i] == ps[i]
    {
      assert r[i].(isTrashed := ps[i].isTrashed) == ps[i];
    }
  }

  /** Restoring then trashing a product that was in the trash gives the
      catalog back unchanged. */
  lemma SoftDeleteUndoesRestore(ps: seq<Product>, id: string)
    requires forall i :: 0 <= i < |ps| && ps[i].id == id ==> ps[i].isTrashed
    ensures SoftDelete(Restore(ps, id), id) == ps
  {
    var r := SoftDelete(Restore(ps, id), id);
    forall i | 0 <= i < |ps|
      ensures r[i] == ps[i]
    {
      assert r[i].(isTrashed := ps[i].isTrashed) == ps[i];
    }
  }

  /** Trashing a product and emptying the trash is the same as emptying the
      trash and deleting that product for good. */
  lemma {:induction false} EmptyTrashAfterSoftDelete(ps: seq<Product>, id: string)
    ensures EmptyTrash(SoftDelete(ps, id)) == PermanentDelete(EmptyTrash(ps), id)
    decreases |ps|
  {
    if |ps| > 0 {
      assert SoftDelete(ps, id)[1..] == SoftDelete(ps[1..], id);
      EmptyTrashAfterSoftDelete(ps[1..], id);
    }
  }

  /** The catalog view and the trash view split the products between them:
      each product is in exactly one of the two. */
  lemma {:induction false} TrashPartitions(ps: seq<Product>)
    ensures |EmptyTrash(ps)| + |TrashedProducts(ps)| == |ps|
    decreases |ps|
  {
    if |ps| > 0 {
      TrashPartitions(ps[1..]);
    }
  }

  /** Applying the same edit twice is applying it once. */
  lemma UpdateProductIdempotent(ps: seq<Product>, updated: Product)
    ensures UpdateProduct(UpdateProduct(ps, updated), updated) == UpdateProduct(ps, updated)
  {
  }

  /** Creating a product under a fresh id and deleting that id for good gives
      the catalog back unchanged. */
  lemma PermanentDeleteUndoesCreate(ps: seq<Product>, draft: Product, newId: string)
    requires forall i :: 0 <= i < |ps| ==> ps[i].id != newId
    ensures PermanentDelete(CreateSingleProduct(ps, draft, newId), newId) == ps
  {
    Seqs.FilterKeepsAll(ps, (p: Product) => p.id != newId);
  }

  // ---------------------------------------------------------------------
  // Bulk import

  /** The id fallback of the import: an empty id is replaced by a generated
      one, and an imported product is never in the trash. */
  function WithProperId(p: Product, freshId: string): (r: Product)
    ensures !r.isTrashed
    ensures r.id == (if p.id == "" then freshId else p.id)
    ensures r.(id := p.id, isTrashed := p.isTrashed) == p
  {
    p.(id := if p.id == "" then freshId else p.id, isTrashed := false)
  }

  /** The import match: same id or same name. */
  predicate SameIdOrName(a: Product, b: Product)
  {
    a.id == b.id || a.name == b.name
  }

  /** Position `k` holds the first product matching `np`. */
  ghost predicate FirstMatch(list: seq<Product>, np: Product, k: int)
  {
    0 <= k < |list| && SameIdOrName(list[k], np)
    && forall j :: 0 <= j < k ==> !SameIdOrName(list[j], np)
  }

  /** One imported product: it overwrites the first product with the same id
      or name (spreading a complete product over another leaves the incoming
      one), or else goes to the front. The flag says which happened. */
  function ImportOne(list: seq<Product>, np: Product): (r: (seq<Product>, bool))
    ensures r.1 ==> exists k :: FirstMatch(list, np, k) && r.0 == list[k := np]
    ensures !r.1 ==> (forall i :: 0 <= i < |list| ==> !SameIdOrName(list[i], np))
                     && r.0 == [np] + list
    ensures np in r.0
    ensures forall p :: p in r.0 ==> p in list || p == np
    ensures forall p :: p in list && !SameIdOrName(p, np) ==> p in r.0
  {
    var k := Seqs.FindIndex(list, (op: Product) => SameIdOrName(op, np));
    if k > -1 then
      var r := list[k := np];
      assert r[k] == np;
      assert FirstMatch(list, np, k);
      assert forall p :: p in list && !SameIdOrName(p, np) ==> p in r by {
        forall p | p in list && !SameIdOrName(p, np)
          ensures p in r
        {
          var j :| 0 <= j < |list| && list[j] == p;
          assert r[j] == p;
        }
      }
      (r, true)
    else ([np] + list, false)
  }

  datatype ImportResult = ImportResult(products: seq<Product>, created: nat, updated: nat)

  /** Imports a batch in order; a later product is matched against the list
      as the earlier ones left it. */
  function Import(list: seq<Product>, incoming: seq<Product>): (r: ImportResult)
    ensures r.created + r.updated == |incoming|
    ensures |r.products| == |list| + r.created
    ensures forall p :: p in r.products ==> p in list || p in incoming
    ensures forall p :: p in list && (forall q :: q in incoming ==> !SameIdOrName(p, q)) ==>
              p in r.products
    ensures |incoming| > 0 ==> incoming[|incoming| - 1] in r.products
    decreases |incoming|
  {
    if |incoming| == 0 then ImportResult(list, 0, 0)
    else
      var step := ImportOne(list, incoming[0]);
      var rest := Import(step.0, incoming[1..]);
      assert forall q :: q in incoming[1..] ==> q in incoming;
      if step.1 then rest.(updated := rest.updated + 1)
      else rest.(created := rest.created + 1)
  }

  /** The products of a batch after the id fallback, position by position. */
  function AssignIds(newProducts: seq<Product>, freshIds: seq<string>): (r: seq<Product>)
    requires |freshIds| == |newProducts|
    ensures |r| == |newProducts|
    ensures forall i :: 0 <= i < |r| ==> r[i] == WithProperId(newProducts[i], freshIds[i])
    ensures forall q :: q in r ==> !q.isTrashed
  {
    seq(|newProducts|, i requires 0 <= i < |newProducts| => WithProperId(newProducts[i], freshIds[i]))
  }

  /** The bulk import handler: fill in missing ids from `freshIds`, clear the
      trash flag, then import in order. Every product it adds or overwrites is
      out of the trash, and created plus updated is the batch size. */
  function AddMultipleProducts(ps: seq<Product>, newProducts: seq<Product>, freshIds: seq<string>): (r: ImportResult)
    requires |freshIds| == |newProducts|
    ensures r.created + r.updated == |newProducts|
    ensures |r.products| == |ps| + r.created
    ensures forall p :: p in r.products && p !in ps ==> !p.isTrashed
    ensures forall p :: p in ps && p.id !in freshIds && (forall q :: q in newProducts ==> p.id != q.id && p.name != q.name) ==>
              p in r.products
  {
    var incoming := AssignIds(newProducts, freshIds);
    UntouchedSurvives(ps, newProducts, freshIds);
    Import(ps, incoming)
  }

  /** A product whose id and name differ from every product of the batch, and
      whose id is none of the generated ones, matches none of the products
      after the id fallback either. */
  lemma UntouchedSurvives(ps: seq<Product>, newProducts: seq<Product>, freshIds: seq<string>)
    requires |freshIds| == |newProducts|
    ensures forall p :: p in ps && p.id !in freshIds && (forall q :: q in newProducts ==> p.id != q.id && p.name != q.name) ==>
              p in Import(ps, AssignIds(newProducts, freshIds)).products
  {
    var incoming := AssignIds(newProducts, freshIds);
    forall p | p in ps && p.id !in freshIds && (forall q :: q in newProducts ==> p.id != q.id && p.name != q.name)
      ensures p in Import(ps, incoming).products
    {
      forall q | q in incoming
        ensures !SameIdOrName(p, q)
      {
        var i :| 0 <= i < |incoming| && incoming[i] == q;
        assert newProducts[i] in newProducts;
        assert freshIds[i] in freshIds;
      }
    }
  }
}

=== FILE: login.dfy ===
/** The sign-in decision: the first account whose username or email equals
    the typed identifier ignoring case, and whose stored password equals the
    typed one exactly, decides the outcome. A waiting account is refused
    first, then an inactive one; no match at all gives one generic refusal
    that does not say whether the identifier or the password was wrong. */
module Login {
  import opened Types
  import Seqs
  import Text
  import Users

  datatype LoginOutcome =
    | LoggedIn(user: User)
    | AwaitingApproval
    | AccountInactive
    | InvalidCredentials

  /** Account `u` answers to the identifier and password typed. */
  predicate Matches(u: User, login: string, password: string)
  {
    (Text.Lower(u.username) == Text.Lower(login) || Text.Lower(u.email) == Text.Lower(login))
    && u.password == Some(password)
  }

  /** Account `k` is the first one answering to the credentials. */
  ghost predicate FirstMatching(users: seq<User>, login: string, password: string, k: int)
  {
    0 <= k < |users| && Matches(users[k], login, password)
    && forall j :: 0 <= j < k ==> !Matches(users[j], login, password)
  }

  function SignIn(users: seq<User>, login: string, password: string): (r: LoginOutcome)
    ensures r == InvalidCredentials <==> forall i :: 0 <= i < |users| ==> !Matches(users[i], login, password)
    ensures r == AwaitingApproval <==>
              exists k :: FirstMatching(users, login, password, k) && Flag(users[k].isPendingApproval)
    ensures r == AccountInactive <==>
              exists k :: FirstMatching(users, login, password, k)
                           && !Flag(users[k].isPendingApproval) && !users[k].isActive
    ensures r.LoggedIn? <==>
              exists k :: FirstMatching(users, login, password, k)
                          && !Flag(users[k].isPendingApproval) && users[k].isActive
    ensures r.LoggedIn? ==> exists k :: FirstMatching(users, login, password, k) && r.user == users[k]
  {
    var k := Seqs.FindIndex(users, (u: User) => Matches(u, login, password));
    if k == -1 then InvalidCredentials
    else
      assert FirstMatching(users, login, password, k);
      if Flag(users[k].isPendingApproval) then AwaitingApproval
      else if users[k].isActive then LoggedIn(users[k])
      else AccountInactive
  }

  /** Whoever signs in is an active account that is not waiting for approval
      and whose password is the one typed; a waiting account never signs in,
      even when it is also marked active. */
  lemma SignedInAccountIsApproved(users: seq<User>, login: string, password: string)
    ensures var r := SignIn(users, login, password);
            r.LoggedIn? ==> r.user in users && r.user.isActive
                            && !Flag(r.user.isPendingApproval)
                            && r.user.password == Some(password)
  {
  }

  /** Only case is ignored: typing the identifier in lower case changes nothing. */
  lemma SignInIgnoresCase(users: seq<User>, login: string, password: string)
    ensures SignIn(users, Text.Lower(login), password) == SignIn(users, login, password)
  {
    Text.LowerIdempotent(login);
    assert forall u :: Matches(u, Text.Lower(login), password) == Matches(u, login, password);
  }

  /** An account an admin creates active can sign in at once with the
      password chosen for it, unless an older account answers to the same
      credentials. */
  lemma CreatedAccountSignsIn(users: seq<User>, data: User, passwordInput: string, newId: string)
    requires data.isActive
    requires forall i :: 0 <= i < |users| ==> !Matches(users[i], data.username, passwordInput)
    ensures var roster := Users.CreateUser(users, data, passwordInput, newId);
            SignIn(roster, data.username, passwordInput) == LoggedIn(roster[|users|])
  {
    var roster := Users.CreateUser(users, data, passwordInput, newId);
    assert forall i :: 0 <= i < |users| ==> roster[i] == users[i];
    assert FirstMatching(roster, data.username, passwordInput, |users|);
  }

  /** A freshly self-registered account can not sign in before approval: its
      own credentials give the waiting answer, unless an older account already
      answers to them. */
  lemma RegisteredWaitsForApproval(users: seq<User>, form: Users.Registration, newId: string)
    requires forall i :: 0 <= i < |users| ==> !Matches(users[i], form.username, form.passwordInput)
    ensures SignIn(Users.SelfRegister(users, form, newId), form.username, form.passwordInput) == AwaitingApproval
  {
    var r := Users.SelfRegister(users, form, newId);
    assert FirstMatching(r, form.username, form.passwordInput, |users|);
  }

  /** Usernames are not checked for uniqueness, so an older account with the
      same username and password answers first: the registrant is signed in
      as that account, before and after approval. */
  lemma OlderAccountShadowsRegistration(users: seq<User>, form: Users.Registration, newId: string)
    requires |users| > 0 && users[0].username == form.username
    requires users[0].password == Some(form.passwordInput)
    requires users[0].isActive && !Flag(users[0].isPendingApproval) && users[0].id != newId
    ensures SignIn(Users.SelfRegister(users, form, newId), form.username, form.passwordInput) == LoggedIn(users[0])
    ensures SignIn(Users.Approve(Users.SelfRegister(users, form, newId), newId), form.username, form.passwordInput)
         == LoggedIn(users[0])
  {
    var registered := Users.SelfRegister(users, form, newId);
    var roster := Users.Approve(registered, newId);
    assert registered[0] == users[0];
    assert roster[0] == users[0];
    assert FirstMatching(registered, form.username, form.passwordInput, 0);
    assert FirstMatching(roster, form.username, form.passwordInput, 0);
  }

  /** After approval the same credentials sign the account in. */
  lemma ApprovedAccountSignsIn(users: seq<User>, form: Users.Registration, newId: string)
    requires forall i :: 0 <= i < |users| ==> !Matches(users[i], form.username, form.passwordInput)
    ensures var roster := Users.Approve(Users.SelfRegister(users, form, newId), newId);
            SignIn(roster, form.username, form.passwordInput) == LoggedIn(roster[|users|])
  {
    var registered := Users.SelfRegister(users, form, newId);
    var roster := Users.Approve(registered, newId);
    forall i | 0 <= i < |users|
      ensures !Matches(roster[i], form.username, form.passwordInput)
    {
      assert registered[i] == users[i];
    }
    assert FirstMatching(roster, form.username, form.passwordInput, |users|);
  }
}

=== FILE: orders.dfy ===
/** The order ledger. Checkout turns the cart into an order with its totals
    fixed once; afterwards only the status, the uploaded evidence and the
    notes of an order change. Any status may follow any other. */
module Orders {
  import opened Types
  import Seqs
  import Cart

  const PaymentUploadPrefix: string := "simulated_uploads/payment/"
  const ContainerUploadPrefix: string := "simulated_uploads/containers/"

  datatype Checkout = Checkout(orders: seq<Order>, cart: seq<CartItem>, placed: Option<Order>)

  /** Checkout needs a signed-in user and a non-empty cart; otherwise nothing
      changes. On success one order goes to the front of the ledger holding
      the cart lines and the totals at the buyer's current discount rate, and
      the cart is emptied. */
  function CreateOrder(currentUser: Option<User>, cart: seq<CartItem>, orders: seq<Order>,
                       orderId: string, orderDate: int): (r: Checkout)
    ensures currentUser.None? || |cart| == 0 ==> r == Checkout(orders, cart, None)
    ensures currentUser.Some? && |cart| > 0 ==>
              && r.placed.Some?
              && r.orders == [r.placed.value] + orders
              && r.cart == []
              && var o := r.placed.value;
                 && o.id == orderId && o.userId == currentUser.value.id && o.orderDate == orderDate
                 && o.items == cart
                 && o.status == OrderConfirmed
                 && o.subtotal == Cart.Subtotal(cart)
                 && o.discountApplied == o.subtotal * currentUser.value.discountRate
                 && o.grandTotal == o.subtotal * (1.0 - currentUser.value.discountRate)
                 && o.grandTotal == o.subtotal - o.discountApplied
                 && o.paymentProofUrl.None? && o.customerNotes.None?
                 && o.containerPhotoUrl.None? && o.adminNotes.None?
  {
    if currentUser.None? || |cart| == 0 then Checkout(orders, cart, None)
    else
      var rate := currentUser.value.discountRate;
      var subtotal := Cart.Subtotal(cart);
      var order := Order(
        id := orderId,
        userId := currentUser.value.id,
        orderDate := orderDate,
        items := cart,
        subtotal := subtotal,
        discountApplied := subtotal * rate,
        grandTotal := subtotal * (1.0 - rate),
        status := OrderConfirmed,
        paymentProofUrl := None,
        customerNotes := None,
        containerPhotoUrl := None,
        adminNotes := None);
      Checkout([order] + orders, [], Some(order))
  }

  /** `adminNotes || o.adminNotes`: an absent or empty note keeps the old one. */
  function KeepNotes(given: Option<string>, prior: Option<string>): (r: Option<string>)
    ensures given.Some? && given.value != "" ==> r == given
    ensures given.None? || given.value == "" ==> r == prior
  {
    if given.Some? && given.value != "" then given else prior
  }

  /** The status of every order with the id is overwritten, whatever it was;
      the admin note is replaced only by a non-empty one. */
  function UpdateOrderStatus(orders: seq<Order>, id: string, newStatus: OrderStatus,
                             adminNotes: Option<string>): (r: seq<Order>)
    ensures |r| == |orders|
    ensures forall i :: 0 <= i < |orders| && orders[i].id == id ==>
              r[i].status == newStatus
              && r[i].adminNotes == KeepNotes(adminNotes, orders[i].adminNotes)
              && r[i].(status := orders[i].status, adminNotes := orders[i].adminNotes) == orders[i]
    ensures forall i :: 0 <= i < |orders| && orders[i].id != id ==> r[i] == orders[i]
  {
    Seqs.Map(orders, (o: Order) =>
      if o.id == id then o.(status := newStatus, adminNotes := KeepNotes(adminNotes, o.adminNotes)) else o)
  }

  /** A payment receipt records the file and the customer's note and forces the
      status to "payment proof uploaded", whatever it was. */
  function UploadPaymentProof(orders: seq<Order>, id: string, fileName: string, customerNotes: string): (r: seq<Order>)
    ensures |r| == |orders|
    ensures forall i :: 0 <= i < |orders| && orders[i].id == id ==>
              r[i].status == PaymentProofUploaded
              && r[i].paymentProofUrl == Some(PaymentUploadPrefix + fileName)
              && r[i].customerNotes == Some(customerNotes)
              && r[i].(status := orders[i].status, paymentProofUrl := orders[i].paymentProofUrl,
                       customerNotes := orders[i].customerNotes) == orders[i]
    ensures forall i :: 0 <= i < |orders| && orders[i].id != id ==> r[i] == orders[i]
  {
    Seqs.Map(orders, (o: Order) =>
      if o.id == id
      then o.(paymentProofUrl := Some(PaymentUploadPrefix + fileName), customerNotes := Some(customerNotes),
              status := PaymentProofUploaded)
      else o)
  }

  /** A container photo records the file and changes nothing else, not even
      the status. */
  function UploadContainerPhoto(orders: seq<Order>, id: string, fileName: string): (r: seq<Order>)
    ensures |r| == |orders|
    ensures forall i :: 0 <= i < |orders| && orders[i].id == id ==>
              r[i].containerPhotoUrl == Some(ContainerUploadPrefix + fileName)
              && r[i].(containerPhotoUrl := orders[i].containerPhotoUrl) == orders[i]
    ensures forall i :: 0 <= i < |orders| && orders[i].id != id ==> r[i] == orders[i]
  {
    Seqs.Map(orders, (o: Order) =>
      if o.id == id then o.(containerPhotoUrl := Some(ContainerUploadPrefix + fileName)) else o)
  }

  /** The orders page: a plain user sees their own orders, in ledger order;
      super admins and managers see the whole ledger. */
  function VisibleOrders(orders: seq<Order>, viewer: User): (r: seq<Order>)
    ensures viewer.role != PlainUser ==> r == orders
    ensures viewer.role == PlainUser ==>
              (forall o :: o in r <==> o in orders && o.userId == viewer.id)
              && (forall o :: multiset(r)[o] == if o.userId == viewer.id then multiset(orders)[o] else 0)
              && Seqs.IsSubsequence(r, orders)
  {
    if viewer.role == PlainUser then Seqs.Filter(orders, (o: Order) => o.userId == viewer.id)
    else orders
  }

  /** The part of an order fixed at checkout. */
  function Snapshot(o: Order): (string, string, int, seq<CartItem>, real, real, real)
  {
    (o.id, o.userId, o.orderDate, o.items, o.subtotal, o.discountApplied, o.grandTotal)
  }

  /** Same orders in the same places, each with its checkout snapshot intact. */
  ghost predicate SnapshotsKept(before: seq<Order>, after: seq<Order>)
  {
    |after| == |before| && forall i :: 0 <= i < |before| ==> Snapshot(after[i]) == Snapshot(before[i])
  }

  /** No operation after checkout touches an order's lines or totals, so an
      order keeps the prices of checkout time. */
  lemma LedgerUpdatesKeepSnapshots(orders: seq<Order>, id: string, s: OrderStatus,
                                   notes: Option<string>, fileName: string, customerNotes: string)
    ensures SnapshotsKept(orders, UpdateOrderStatus(orders, id, s, notes))
    ensures SnapshotsKept(orders, UploadPaymentProof(orders, id, fileName, customerNotes))
    ensures SnapshotsKept(orders, UploadContainerPhoto(orders, id, fileName))
  {
  }

  /** Setting the same status and note twice is setting them once. */
  lemma UpdateOrderStatusIdempotent(orders: seq<Order>, id: string, s: OrderStatus, notes: Option<string>)
    ensures UpdateOrderStatus(UpdateOrderStatus(orders, id, s, notes), id, s, notes)
         == UpdateOrderStatus(orders, id, s, notes)
  {
  }

  /** Uploading the same receipt twice is uploading it once. */
  lemma UploadPaymentProofIdempotent(orders: seq<Order>, id: string, fileName: string, customerNotes: string)
    ensures UploadPaymentProof(UploadPaymentProof(orders, id, fileName, customerNotes), id, fileName, customerNotes)
         == UploadPaymentProof(orders, id, fileName, customerNotes)
  {
  }

  /** An order is visible to the user who placed it, right after checkout. */
  lemma BuyerSeesNewOrder(buyer: User, cart: seq<CartItem>, orders: seq<Order>, orderId: string, orderDate: int)
    requires |cart| > 0
    ensures var r := CreateOrder(Some(buyer), cart, orders, orderId, orderDate);
            r.placed.Some? && r.placed.value in VisibleOrders(r.orders, buyer)
  {
  }

  /** The totals fixed on the order are the ones the cart page showed the
      buyer just before checkout. */
  lemma OrderMatchesCartTotals(buyer: User, cart: seq<CartItem>, orders: seq<Order>, orderId: string, orderDate: int)
    requires |cart| > 0
    ensures var o := CreateOrder(Some(buyer), cart, orders, orderId, orderDate).placed.value;
            var t := Cart.CartTotals(cart, Some(buyer));
            o.subtotal == t.subtotal && o.discountApplied == t.discount && o.grandTotal == t.grandTotal
  {
  }

  /** With non-negative prices and quantities and a rate between 0 and 1,
      the discount never exceeds the subtotal and the amount due is never
      negative. */
  lemma GrandTotalNonNegative(buyer: User, cart: seq<CartItem>, orders: seq<Order>, orderId: string, orderDate: int)
    requires |cart| > 0 && 0.0 <= buyer.discountRate <= 1.0
    requires forall i :: 0 <= i < |cart| ==> cart[i].product.price >= 0.0 && cart[i].quantity >= 0
    ensures var o := CreateOrder(Some(buyer), cart, orders, orderId, orderDate).placed.value;
            0.0 <= o.discountApplied <= o.subtotal && o.grandTotal >= 0.0
  {
    Cart.SubtotalNonNegative(cart);
    var s := Cart.Subtotal(cart);
    var rate := buyer.discountRate;
    assert s * rate <= s * 1.0;
    assert s * (1.0 - rate) >= 0.0;
  }

  /** A subtotal of 100 at a rate of 0.1 gives a discount of 10 and a grand
      total of 90. */
  lemma TenPercentOfHundred(buyer: User, cart: seq<CartItem>, orders: seq<Order>, orderId: string, orderDate: int)
    requires |cart| > 0 && Cart.Subtotal(cart) == 100.0 && buyer.discountRate == 0.1
    ensures var o := CreateOrder(Some(buyer), cart, orders, orderId, orderDate).placed.value;
            o.discountApplied == 10.0 && o.grandTotal == 90.0
  {
  }

  /** A receipt uploaded for an order being prepared moves it to "payment
      proof uploaded". */
  lemma ReceiptOverridesProcessing(orders: seq<Order>, i: int)
    requires 0 <= i < |orders| && orders[i].status == Processing
    ensures UploadPaymentProof(orders, orders[i].id, "x.png", "note")[i].status == PaymentProofUploaded
  {
  }
}

=== FILE: seqs.dfy ===
/** The array operations every state update of the storefront is built from:
    `filter`, `map` and `findIndex`, each returning a new sequence, plus the
    notion of an order-preserving selection used to state what a filter keeps. */
module Seqs {

  /** `a` is `b` with some entries dropped and the others kept in their order. */
  ghost predicate IsSubsequence<T>(a: seq<T>, b: seq<T>)
    decreases |b|
  {
    if |a| == 0 then true
    else if |b| == 0 then false
    else (a[0] == b[0] && IsSubsequence(a[1..], b[1..])) || IsSubsequence(a, b[1..])
  }

  lemma {:induction false} SubsequenceReflexive<T>(s: seq<T>)
    ensures IsSubsequence(s, s)
    decreases |s|
  {
    if |s| > 0 {
      SubsequenceReflexive(s[1..]);
    }
  }

  /** Selecting from a selection is a selection: filters compose. */
  lemma {:induction false} SubsequenceTransitive<T>(a: seq<T>, b: seq<T>, c: seq<T>)
    requires IsSubsequence(a, b) && IsSubsequence(b, c)
    ensures IsSubsequence(a, c)
    decreases |c|
  {
    if |a| == 0 {
    } else if IsSubsequence(b, c[1..]) {
      SubsequenceTransitive(a, b, c[1..]);
    } else {
      assert b[0] == c[0] && IsSubsequence(b[1..], c[1..]);
      if a[0] == b[0] && IsSubsequence(a[1..], b[1..]) {
        SubsequenceTransitive(a[1..], b[1..], c[1..]);
      } else {
        SubsequenceTransitive(a, b[1..], c[1..]);
      }
    }
  }

  /** A selection holds nothing that was not there and is never longer. */
  lemma {:induction false} SubsequenceContents<T>(a: seq<T>, b: seq<T>)
    requires IsSubsequence(a, b)
    ensures |a| <= |b|
    ensures forall x :: x in a ==> x in b
    decreases |b|
  {
    if |a| == 0 {
    } else if IsSubsequence(a, b[1..]) {
      SubsequenceContents(a, b[1..]);
    } else {
      SubsequenceContents(a[1..], b[1..]);
      assert forall x :: x in a ==> x == a[0] || x in a[1..];
    }
  }

  /** `Array.prototype.filter`: the entries satisfying `keep`, in order, each
      kept as often as it occurs. */
  function Filter<T(!new)>(s: seq<T>, keep: T -> bool): (r: seq<T>)
    ensures forall x :: x in r <==> x in s && keep(x)
    ensures forall x :: multiset(r)[x] == if keep(x) then multiset(s)[x] else 0
    ensures IsSubsequence(r, s)
    decreases |s|
  {
    assert |s| > 0 ==> s == [s[0]] + s[1..];
    if |s| == 0 then []
    else if keep(s[0]) then [s[0]] + Filter(s[1..], keep)
    else Filter(s[1..], keep)
  }

  /** `Array.prototype.map`. */
  function Map<T, U>(s: seq<T>, f: T -> U): (r: seq<U>)
    ensures |r| == |s|
    ensures forall i :: 0 <= i < |s| ==> r[i] == f(s[i])
  {
    seq(|s|, i requires 0 <= i < |s| => f(s[i]))
  }

  /** `Array.prototype.findIndex`: the first position satisfying `p`, or -1. */
  function FindIndex<T>(s: seq<T>, p: T -> bool): (r: int)
    ensures -1 <= r < |s|
    ensures r == -1 <==> forall i :: 0 <= i < |s| ==> !p(s[i])
    ensures 0 <= r ==> p(s[r]) && forall i :: 0 <= i < r ==> !p(s[i])
    decreases |s|
  {
    if |s| == 0 then -1
    else if p(s[0]) then 0
    else
      var k := FindIndex(s[1..], p);
      if k == -1 then -1 else k + 1
  }

  /** No two entries share a key. */
  ghost predicate UniqueBy<T, K>(s: seq<T>, key: T -> K)
  {
    forall i, j :: 0 <= i < j < |s| ==> key(s[i]) != key(s[j])
  }

  /** Dropping entries never introduces a repeated key. */
  lemma {:induction false} SubsequenceUnique<T, K>(a: seq<T>, b: seq<T>, key: T -> K)
    requires IsSubsequence(a, b) && UniqueBy(b, key)
    ensures UniqueBy(a, key)
    decreases |b|
  {
    if |a| == 0 {
    } else if IsSubsequence(a, b[1..]) {
      SubsequenceUnique(a, b[1..], key);
    } else {
      SubsequenceUnique(a[1..], b[1..], key);
      SubsequenceContents(a[1..], b[1..]);
      forall j | 0 < j < |a|
        ensures key(a[0]) != key(a[j])
      {
        assert a[j] == a[1..][j - 1];
        assert a[j] in b[1..];
        var k :| 0 <= k < |b[1..]| && b[1..][k] == a[j];
        assert b[k + 1] == a[j];
      }
    }
  }

  /** A filter that keeps everything changes nothing. */
  lemma {:induction false} FilterKeepsAll<T(!new)>(s: seq<T>, keep: T -> bool)
    requires forall i :: 0 <= i < |s| ==> keep(s[i])
    ensures Filter(s, keep) == s
    decreases |s|
  {
    if |s| > 0 {
      FilterKeepsAll(s[1..], keep);
    }
  }
}

=== FILE: text.dfy ===
/** The two string operations the storefront compares with:
    `toLowerCase` (on the Latin letters of Unicode's Basic Latin, Latin-1 and
    Latin Extended-A blocks, which cover Turkish) and `includes`. */
module Text {
  import Seqs

  /** The capital letters `LowerChar` maps to a single small letter:
      A-Z, the Latin-1 capitals À-Þ except the multiplication sign, and the
      capitals of the Latin Extended-A pairs (Ğ, Ş, Ž, ...) together with Ÿ.
      Dotted capital I (U+0130) is not among them. */
  predicate IsUpper(c: char)
  {
    || 'A' <= c <= 'Z'
    || ('\U{00C0}' <= c <= '\U{00DE}' && c != '\U{00D7}')
    || ('\U{0100}' <= c <= '\U{012E}' && c as int % 2 == 0)
    || ('\U{0132}' <= c <= '\U{0136}' && c as int % 2 == 0)
    || ('\U{0139}' <= c <= '\U{0147}' && c as int % 2 == 1)
    || ('\U{014A}' <= c <= '\U{0176}' && c as int % 2 == 0)
    || c == '\U{0178}'
    || ('\U{0179}' <= c <= '\U{017D}' && c as int % 2 == 1)
  }

  /** `toLowerCase` on one character: each capital of `IsUpper` becomes its
      small letter, every other character stays. */
  function LowerChar(c: char): (r: char)
    ensures !IsUpper(r)
    ensures !IsUpper(c) ==> r == c
    ensures IsUpper(c) ==> r != c
    ensures 'A' <= c <= 'Z' ==> r as int == c as int + 32
  {
    if 'A' <= c <= 'Z' || ('\U{00C0}' <= c <= '\U{00DE}' && c != '\U{00D7}') then (c as int + 32) as char
    else if c == '\U{0178}' then '\U{00FF}'
    else if IsUpper(c) then (c as int + 1) as char
    else c
  }

  /** `toLowerCase`, character by character. */
  function Lower(s: string): (r: string)
    ensures |r| == |s|
  {
    Seqs.Map(s, LowerChar)
  }

  /** Lowering leaves no capital, changes every capital and keeps every other
      character in place. */
  lemma LowerLeavesNoCapital(s: string)
    ensures forall i :: 0 <= i < |s| ==> !IsUpper(Lower(s)[i])
    ensures forall i :: 0 <= i < |s| && !IsUpper(s[i]) ==> Lower(s)[i] == s[i]
    ensures forall i :: 0 <= i < |s| && IsUpper(s[i]) ==> Lower(s)[i] != s[i]
  {
  }

  /** Lowering twice is lowering once, so comparing lowered strings is an
      equivalence that a lowered input already satisfies. */
  lemma LowerIdempotent(s: string)
    ensures Lower(Lower(s)) == Lower(s)
  {
  }

  /** `needle` sits in `hay` starting at position `i`. */
  ghost predicate OccursAt(hay: string, needle: string, i: int)
  {
    0 <= i && i + |needle| <= |hay| && hay[i..i + |needle|] == needle
  }

  /** `String.prototype.includes`, scanning left to right. */
  function Includes(hay: string, needle: string): (r: bool)
    ensures |needle| == 0 ==> r
    ensures r ==> |needle| <= |hay|
    ensures r && |needle| == |hay| ==> needle == hay
    decreases |hay|
  {
    if needle <= hay then true
    else if |hay| == 0 then false
    else Includes(hay[1..], needle)
  }

  /** The scan finds `needle` exactly when it occurs somewhere in `hay`. */
  lemma {:induction false} IncludesIff(hay: string, needle: string)
    ensures Includes(hay, needle) <==> exists i :: OccursAt(hay, needle, i)
    decreases |hay|
  {
    if needle <= hay {
      assert OccursAt(hay, needle, 0);
    } else if |hay| == 0 {
      assert forall i :: !OccursAt(hay, needle, i);
    } else {
      IncludesIff(hay[1..], needle);
      forall i | OccursAt(hay, needle, i)
        ensures OccursAt(hay[1..], needle, i - 1)
      {
        assert hay[1..][i - 1..i - 1 + |needle|] == hay[i..i + |needle|];
      }
      forall i | OccursAt(hay[1..], needle, i)
        ensures OccursAt(hay, needle, i + 1)
      {
        assert hay[1..][i..i + |needle|] == hay[i + 1..i + 1 + |needle|];
      }
    }
  }

  /** The Turkish capitals other than dotted I lower as `toLowerCase` lowers
      them; plain I lowers to dotted i, as it does outside a Turkish locale. */
  lemma LowerTurkish()
    ensures Lower("ÇĞÖŞÜI") == "çğöşüi"
  {
  }
}

=== FILE: types.dfy ===
/** The records the storefront keeps: products, users, cart entries and
    orders. Optional TypeScript fields become `Option`s; prices and rates are
    exact `real`s; ids, file names and timestamps are opaque values. */
module Types {

  datatype Option<T> = None | Some(value: T)

  /** An optional boolean flag read the JavaScript way: absent counts as false. */
  predicate Flag(o: Option<bool>)
  {
    o == Some(true)
  }

  /** The fixed set of product categories. */
  datatype Category =
    | Electronics
    | Software
    | Hardware
    | Services
    | OfficeSupplies
    | AutomotiveSpareParts

  /** The string value each category carries at run time; the catalog search
      matches against it. */
  function CategoryLabel(c: Category): string
  {
    match c
    case Electronics => "Elektronik"
    case Software => "Yazılım"
    case Hardware => "Donanım"
    case Services => "Hizmetler"
    case OfficeSupplies => "Ofis Malzemeleri"
    case AutomotiveSpareParts => "Otomotiv Yedek Parça"
  }

  datatype Product = Product(
    id: string,
    name: string,
    category: Category,
    price: real,
    description: string,
    imageUrl: string,
    specifications: map<string, string>,
    stock: int,
    isTrashed: bool)

  /** The three roles; `PlainUser` is the role written `'user'`. */
  datatype Role = SuperAdmin | Manager | PlainUser

  function RoleName(r: Role): string
  {
    match r
    case SuperAdmin => "super_admin"
    case Manager => "manager"
    case PlainUser => "user"
  }

  datatype User = User(
    id: string,
    email: string,
    username: string,
    name: string,
    role: Role,
    discountRate: real,
    accessibleCategories: seq<Category>,
    isActive: bool,
    password: Option<string>,
    companyName: Option<string>,
    taxId: Option<string>,
    phoneNumber: Option<string>,
    isPendingApproval: Option<bool>,
    canSetUserDiscounts: Option<bool>,
    canCreateNewUsers: Option<bool>,
    canManageAllProducts: Option<bool>)

  /** A cart line holds a whole product snapshot, not a product id. */
  datatype CartItem = CartItem(product: Product, quantity: int)

  /** The closed set of order states; nothing in it orders them. */
  datatype OrderStatus =
    | OrderConfirmed
    | AwaitingPayment
    | PaymentProofUploaded
    | PaymentConfirmed
    | Processing
    | Shipped
    | InTransit
    | InCustoms
    | NearingDelivery
    | Delivered
    | Cancelled

  function StatusLabel(s: OrderStatus): string
  {
    match s
    case OrderConfirmed => "Sepet Onaylandı"
    case AwaitingPayment => "Ödeme Bekliyor"
    case PaymentProofUploaded => "Ödeme Makbuzu Yüklendi"
    case PaymentConfirmed => "Ödeme Onaylandı"
    case Processing => "Sipariş Hazırlanıyor"
    case Shipped => "Gemiye Yüklendi / Yola Çıktı"
    case InTransit => "Yolda"
    case InCustoms => "Gümrükte"
    case NearingDelivery => "Teslimat Noktasına Yaklaştı"
    case Delivered => "Teslim Edildi"
    case Cancelled => "İptal Edildi"
  }

  const AllStatuses: seq<OrderStatus> :=
    [OrderConfirmed, AwaitingPayment, PaymentProofUploaded, PaymentConfirmed, Processing,
     Shipped, InTransit, InCustoms, NearingDelivery, Delivered, Cancelled]

  /** An order keeps its lines and its three totals as stored fields; the
      evidence and note fields are optional. */
  datatype Order = Order(
    id: string,
    userId: string,
    orderDate: int,
    items: seq<CartItem>,
    subtotal: real,
    discountApplied: real,
    grandTotal: real,
    status: OrderStatus,
    paymentProofUrl: Option<string>,
    customerNotes: Option<string>,
    containerPhotoUrl: Option<string>,
    adminNotes: Option<string>)

  /** An absent optional flag is false, and only an explicit true is true. */
  lemma FlagAbsentIsFalse(o: Option<bool>)
    ensures Flag(o) <==> o.Some? && o.value
    ensures o.None? ==> !Flag(o)
  {
  }

  /** The role strings are pairwise different, so a user has exactly one role. */
  lemma RoleNamesDistinct(a: Role, b: Role)
    ensures RoleName(a) == RoleName(b) <==> a == b
  {
  }

  /** The order states are eleven distinct values, each with its own label. */
  lemma StatusesClosedAndDistinct()
    ensures |AllStatuses| == 11
    ensures forall s: OrderStatus :: s in AllStatuses
    ensures forall i, j :: 0 <= i < j < |AllStatuses| ==> AllStatuses[i] != AllStatuses[j]
    ensures forall a: OrderStatus, b: OrderStatus :: StatusLabel(a) == StatusLabel(b) ==> a == b
  {
    forall s: OrderStatus
      ensures s in AllStatuses
    {
      match s
      case OrderConfirmed => assert AllStatuses[0] == s;
      case AwaitingPayment => assert AllStatuses[1] == s;
      case PaymentProofUploaded => assert AllStatuses[2] == s;
      case PaymentConfirmed => assert AllStatuses[3] == s;
      case Processing => assert AllStatuses[4] == s;
      case Shipped => assert AllStatuses[5] == s;
      case InTransit => assert AllStatuses[6] == s;
      case InCustoms => assert AllStatuses[7] == s;
      case NearingDelivery => assert AllStatuses[8] == s;
      case Delivered => assert AllStatuses[9] == s;
      case Cancelled => assert AllStatuses[10] == s;
    }
  }

  /** Category labels are distinct as well. */
  lemma CategoryLabelsDistinct(a: Category, b: Category)
    ensures CategoryLabel(a) == CategoryLabel(b) <==> a == b
  {
  }
}

=== FILE: users.dfy ===
/** The user roster and its lifecycle: accounts created by an admin are
    approved from the start, self-registered accounts wait for approval with
    every privilege withheld, approval activates an account, and the
    active/passive switch is locked while an account waits. */
module Users {
  import opened Types
  import Seqs

  /** The sign-up form: the only fields a self-registering visitor supplies. */
  datatype Registration = Registration(
    name: string,
    email: string,
    username: string,
    passwordInput: string,
    companyName: Option<string>,
    taxId: Option<string>,
    phoneNumber: Option<string>)

  /** An account waiting for approval is never active. */
  ghost predicate PendingIsInactive(u: User)
  {
    Flag(u.isPendingApproval) ==> !u.isActive
  }

  ghost predicate RosterConsistent(users: seq<User>)
  {
    forall i :: 0 <= i < |users| ==> PendingIsInactive(users[i])
  }

  /** Admin creation appends the account as given, under a fresh id and the
      chosen password, and always approved. */
  function CreateUser(users: seq<User>, data: User, passwordInput: string, newId: string): (r: seq<User>)
    ensures |r| == |users| + 1 && r[..|users|] == users
    ensures r[|users|].id == newId && r[|users|].password == Some(passwordInput)
    ensures r[|users|].isPendingApproval == Some(false) && !Flag(r[|users|].isPendingApproval)
    ensures r[|users|].(id := data.id, password := data.password, isPendingApproval := data.isPendingApproval) == data
  {
    users + [data.(id := newId, password := Some(passwordInput), isPendingApproval := Some(false))]
  }

  /** Self-registration appends an account built from the form alone: role
      `user`, no discount, no categories, inactive, waiting for approval, no
      manager capabilities. */
  function SelfRegister(users: seq<User>, form: Registration, newId: string): (r: seq<User>)
    ensures |r| == |users| + 1 && r[..|users|] == users
    ensures var u := r[|users|];
            && u.id == newId
            && u.role == PlainUser
            && u.discountRate == 0.0
            && u.accessibleCategories == []
            && !u.isActive
            && Flag(u.isPendingApproval)
            && !Flag(u.canSetUserDiscounts) && !Flag(u.canCreateNewUsers) && !Flag(u.canManageAllProducts)
            && u.name == form.name && u.email == form.email && u.username == form.username
            && u.password == Some(form.passwordInput)
            && u.companyName == form.companyName && u.taxId == form.taxId
            && u.phoneNumber == form.phoneNumber
  {
    var u := User(
      id := newId,
      email := form.email,
      username := form.username,
      name := form.name,
      role := PlainUser,
      discountRate := 0.0,
      accessibleCategories := [],
      isActive := false,
      password := Some(form.passwordInput),
      companyName := form.companyName,
      taxId := form.taxId,
      phoneNumber := form.phoneNumber,
      isPendingApproval := Some(true),
      canSetUserDiscounts := None,
      canCreateNewUsers := None,
      canManageAllProducts := None);
    users + [u]
  }

  /** Approval activates every account with the id and ends its wait;
      nothing else changes. */
  function Approve(users: seq<User>, id: string): (r: seq<User>)
    ensures |r| == |users|
    ensures forall i :: 0 <= i < |users| && users[i].id == id ==>
              r[i].isActive && r[i].isPendingApproval == Some(false)
              && r[i].(isActive := users[i].isActive, isPendingApproval := users[i].isPendingApproval) == users[i]
    ensures forall i :: 0 <= i < |users| && users[i].id != id ==> r[i] == users[i]
  {
    Seqs.Map(users, (u: User) => if u.id == id then u.(isActive := true, isPendingApproval := Some(false)) else u)
  }

  /** The active switch flips the accounts with the id that are not waiting for
      approval; a waiting account is left exactly as it was. */
  function ToggleActive(users: seq<User>, id: string): (r: seq<User>)
    ensures |r| == |users|
    ensures forall i :: 0 <= i < |users| ==> r[i].(isActive := users[i].isActive) == users[i]
    ensures forall i :: 0 <= i < |users| ==>
              r[i].isActive == (if users[i].id == id && !Flag(users[i].isPendingApproval)
                                then !users[i].isActive else users[i].isActive)
  {
    Seqs.Map(users, (u: User) => if u.id == id && !Flag(u.isPendingApproval) then u.(isActive := !u.isActive) else u)
  }

  /** `{...old, ...new}`: an optional field left out of the update keeps its
      old value. */
  function Override<T>(prior: Option<T>, given: Option<T>): (r: Option<T>)
    ensures given.Some? ==> r == given
    ensures given.None? ==> r == prior
  {
    if given.Some? then given else prior
  }

  /** Spreading an edited record over a stored one: every required field is
      taken from the edit, every optional field from the edit if present. */
  function Merge(u: User, upd: User): (r: User)
    ensures r.id == upd.id && r.role == upd.role && r.isActive == upd.isActive
    ensures r.email == upd.email && r.username == upd.username && r.name == upd.name
    ensures r.discountRate == upd.discountRate && r.accessibleCategories == upd.accessibleCategories
    ensures r.password == Override(u.password, upd.password)
    ensures r.companyName == Override(u.companyName, upd.companyName)
    ensures r.taxId == Override(u.taxId, upd.taxId)
    ensures r.phoneNumber == Override(u.phoneNumber, upd.phoneNumber)
    ensures r.isPendingApproval == Override(u.isPendingApproval, upd.isPendingApproval)
    ensures r.canSetUserDiscounts == Override(u.canSetUserDiscounts, upd.canSetUserDiscounts)
    ensures r.canCreateNewUsers == Override(u.canCreateNewUsers, upd.canCreateNewUsers)
    ensures r.canManageAllProducts == Override(u.canManageAllProducts, upd.canManageAllProducts)
  {
    upd.(
      password := Override(u.password, upd.password),
      companyName := Override(u.companyName, upd.companyName),
      taxId := Override(u.taxId, upd.taxId),
      phoneNumber := Override(u.phoneNumber, upd.phoneNumber),
      isPendingApproval := Override(u.isPendingApproval, upd.isPendingApproval),
      canSetUserDiscounts := Override(u.canSetUserDiscounts, upd.canSetUserDiscounts),
      canCreateNewUsers := Override(u.canCreateNewUsers, upd.canCreateNewUsers),
      canManageAllProducts := Override(u.canManageAllProducts, upd.canManageAllProducts))
  }

  /** An edit is merged into every account with the edited id. */
  function UpdateUser(users: seq<User>, upd: User): (r: seq<User>)
    ensures |r| == |users|
    ensures forall i :: 0 <= i < |users| ==> r[i].id == users[i].id
    ensures forall i :: 0 <= i < |users| && users[i].id == upd.id ==> r[i] == Merge(users[i], upd)
    ensures forall i :: 0 <= i < |users| && users[i].id != upd.id ==> r[i] == users[i]
  {
    Seqs.Map(users, (u: User) => if u.id == upd.id then Merge(u, upd) else u)
  }

  /** Flipping the switch twice restores the roster, whatever it held. */
  lemma ToggleTwiceIsIdentity(users: seq<User>, id: string)
    ensures ToggleActive(ToggleActive(users, id), id) == users
  {
    var once := ToggleActive(users, id);
    var twice := ToggleActive(once, id);
    forall i | 0 <= i < |users|
      ensures twice[i] == users[i]
    {
      assert once[i].(isActive := users[i].isActive) == users[i];
      assert twice[i].(isActive := once[i].isActive) == once[i];
    }
  }

  /** The switch has no effect on an account that is waiting for approval. */
  lemma ToggleLeavesPendingAlone(users: seq<User>, i: int)
    requires 0 <= i < |users| && Flag(users[i].isPendingApproval)
    ensures ToggleActive(users, users[i].id)[i] == users[i]
  {
    var r := ToggleActive(users, users[i].id);
    assert r[i].(isActive := users[i].isActive) == users[i];
  }

  /** Approving twice is approving once. */
  lemma ApproveIdempotent(users: seq<User>, id: string)
    ensures Approve(Approve(users, id), id) == Approve(users, id)
  {
  }

  /** Merging an edit twice is merging it once. */
  lemma UpdateUserIdempotent(users: seq<User>, upd: User)
    ensures UpdateUser(UpdateUser(users, upd), upd) == UpdateUser(users, upd)
  {
  }

  /** An admin edit is the one step that can break the rule: an edit that
      marks a waiting account active and carries no approval flag leaves it
      waiting and active at once. */
  lemma UpdateCanActivateWaiting(u: User)
    requires u.isPendingApproval == Some(true) && !u.isActive
    ensures RosterConsistent([u])
    ensures !RosterConsistent(UpdateUser([u], u.(isActive := true, isPendingApproval := None)))
  {
    var r := UpdateUser([u], u.(isActive := true, isPendingApproval := None));
    assert r[0] == Merge(u, u.(isActive := true, isPendingApproval := None));
    assert !PendingIsInactive(r[0]);
  }

  /** "A waiting account is never active" holds of every roster built by
      creation, self-registration, approval and the switch. */
  lemma LifecyclePreservesConsistency(users: seq<User>, data: User, pw: string, form: Registration, id: string)
    requires RosterConsistent(users)
    ensures RosterConsistent(CreateUser(users, data, pw, id))
    ensures RosterConsistent(SelfRegister(users, form, id))
    ensures RosterConsistent(Approve(users, id))
    ensures RosterConsistent(ToggleActive(users, id))
  {
    var c := CreateUser(users, data, pw, id);
    assert forall i :: 0 <= i < |users| ==> c[i] == users[i];
    var s := SelfRegister(users, form, id);
    assert forall i :: 0 <= i < |users| ==> s[i] == users[i];
    var t := ToggleActive(users, id);
    forall i | 0 <= i < |users|
      ensures PendingIsInactive(t[i])
    {
      assert t[i].(isActive := users[i].isActive) == users[i];
    }
  }
}

=== FILE: visibility.dfy ===
/** The catalog as a signed-in user sees it: trashed products hidden, a plain
    user narrowed to the categories granted to them, then the selected
    category, then a case-insensitive search over name, description and
    category label. Each step only drops products, so the order is kept. */
module Visibility {
  import opened Types
  import Seqs
  import Text
  import Catalog

  /** The search step as the catalog runs it: `includes` on lowered strings. */
  predicate MatchesSearch(p: Product, term: string)
  {
    var t := Text.Lower(term);
    Text.Includes(Text.Lower(p.name), t)
    || Text.Includes(Text.Lower(p.description), t)
    || Text.Includes(Text.Lower(CategoryLabel(p.category)), t)
  }

  /** The lowered term occurs somewhere in the lowered name, description or
      category label. */
  ghost predicate Mentions(p: Product, term: string)
  {
    var t := Text.Lower(term);
    (exists i :: Text.OccursAt(Text.Lower(p.name), t, i))
    || (exists i :: Text.OccursAt(Text.Lower(p.description), t, i))
    || (exists i :: Text.OccursAt(Text.Lower(CategoryLabel(p.category)), t, i))
  }

  /** Which products the catalog page may show, stated product by product. */
  ghost predicate Visible(p: Product, user: User, selected: Option<Category>, term: string)
  {
    && !p.isTrashed
    && (user.role == PlainUser ==> p.category in user.accessibleCategories)
    && (selected.Some? ==> p.category == selected.value)
    && Mentions(p, term)
  }

  lemma MatchesSearchIff(p: Product, term: string)
    ensures MatchesSearch(p, term) <==> Mentions(p, term)
  {
    var t := Text.Lower(term);
    Text.IncludesIff(Text.Lower(p.name), t);
    Text.IncludesIff(Text.Lower(p.description), t);
    Text.IncludesIff(Text.Lower(CategoryLabel(p.category)), t);
  }

  /** The empty term is mentioned by every product, which is why skipping the
      search step for it changes nothing. */
  lemma MentionsEmpty(p: Product)
    ensures Mentions(p, "")
  {
    assert Text.OccursAt(Text.Lower(p.name), Text.Lower(""), 0);
  }

  /** A search in small letters finds a description that starts with a
      Turkish capital. */
  lemma SearchFindsTurkishCapital(p: Product)
    requires p.description == "Çoklu görev"
    ensures MatchesSearch(p, "çoklu")
  {
    assert Text.Lower("çoklu") == "çoklu";
    assert Text.Lower(p.description) == "çoklu görev";
  }

  /** The filtered catalog: exactly the products that are `Visible`, in the
      order of the catalog. */
  function VisibleProducts(products: seq<Product>, user: User, selected: Option<Category>, term: string): (r: seq<Product>)
    ensures forall p :: p in r <==> p in products && Visible(p, user, selected, term)
    ensures forall p :: multiset(r)[p] == if Visible(p, user, selected, term) then multiset(products)[p] else 0
    ensures Seqs.IsSubsequence(r, products)
  {
    var untrashed := Catalog.EmptyTrash(products);
    var permitted :=
      if user.role == PlainUser
      then Seqs.Filter(untrashed, (p: Product) => p.category in user.accessibleCategories)
      else untrashed;
    var inCategory :=
      if selected.Some?
      then Seqs.Filter(permitted, (p: Product) => p.category == selected.value)
      else permitted;
    var found :=
      if term != ""
      then Seqs.Filter(inCategory, (p: Product) => MatchesSearch(p, term))
      else inCategory;
    Seqs.SubsequenceReflexive(untrashed);
    Seqs.SubsequenceReflexive(permitted);
    Seqs.SubsequenceReflexive(inCategory);
    SelectionFacts(products, untrashed, permitted, inCategory, found);
    SearchFacts(inCategory, term);
    found
  }

  /** Four nested selections form one selection. */
  lemma SelectionFacts<T>(a: seq<T>, b: seq<T>, c: seq<T>, d: seq<T>, e: seq<T>)
    requires Seqs.IsSubsequence(b, a) && Seqs.IsSubsequence(c, b)
    requires Seqs.IsSubsequence(d, c) && Seqs.IsSubsequence(e, d)
    ensures Seqs.IsSubsequence(e, a)
  {
    Seqs.SubsequenceTransitive(c, b, a);
    Seqs.SubsequenceTransitive(d, c, a);
    Seqs.SubsequenceTransitive(e, d, a);
  }

  lemma SearchFacts(ps: seq<Product>, term: string)
    ensures forall p :: p in ps ==> (MatchesSearch(p, term) <==> Mentions(p, term))
    ensures term == "" ==> forall p :: p in ps ==> Mentions(p, term)
  {
    forall p | p in ps
      ensures MatchesSearch(p, term) <==> Mentions(p, term)
      ensures term == "" ==> Mentions(p, term)
    {
      MatchesSearchIff(p, term);
      if term == "" {
        MentionsEmpty(p);
      }
    }
  }

  /** The catalog never shows a trashed product, and shows a plain user only
      products of the categories granted to them. */
  lemma NoTrashedAndOnlyGranted(products: seq<Product>, user: User, selected: Option<Category>, term: string)
    ensures forall p :: p in VisibleProducts(products, user, selected, term) ==> !p.isTrashed
    ensures user.role == PlainUser ==>
              forall p :: p in VisibleProducts(products, user, selected, term) ==>
                p.category in user.accessibleCategories
  {
  }

  /** For a super admin or a manager the granted categories play no part. */
  lemma AdminsIgnoreGrants(products: seq<Product>, user: User, grants: seq<Category>,
                           selected: Option<Category>, term: string)
    requires user.role != PlainUser
    ensures VisibleProducts(products, user, selected, term)
         == VisibleProducts(products, user.(accessibleCategories := grants), selected, term)
  {
  }

  /** With no category selected and no search term, a super admin or a
      manager sees exactly the catalog with the trash emptied. */
  lemma AdminUnfilteredViewIsCatalog(products: seq<Product>, user: User)
    requires user.role != PlainUser
    ensures VisibleProducts(products, user, None, "") == Catalog.EmptyTrash(products)
  {
  }
}
